=== FILE: README.md ===
# mini-inventory service layer, modelled in Dafny

This project models the decision logic of the mini-inventory API: the two
services that create, list and delete **categories** and **items**, and the
abstract store they work on. An item belongs to one category. A category name
is unique. A category cannot be deleted while items reference it.

The model is a sequential state machine over an immutable store:

- `Database.Store` holds the two tables as sequences, newest row first.
  `Database.Valid` is the store's invariant: ids are unique, category names are
  unique, and every item's `categoryId` names an existing category.
- `CategoryRepository` and `ItemRepository` model the repository interfaces of
  `repositories/types.ts` as pure functions on the store. The store enforces its
  unique constraints and raises Prisma's code `P2002` on a clash. The schema's
  foreign key is deliberately not modelled. Referential integrity therefore
  rests on the services' own checks, and the proofs show that those checks are
  enough.
- `CategoryService` and `ItemService` model the services. Each operation
  returns a `Step`. A `Step` holds the result (a value, an `HttpError(status,
  message)`, or a store error passed through as `Other`), the store afterwards,
  and the repository calls issued. Recording the calls lets the contracts state
  which calls are *not* made: no category lookup before the local checks pass,
  no item count for an unknown category, no delete for an unknown item.
- `Text.Trim` models JavaScript's `String.prototype.trim`. It strips the
  ECMAScript whitespace and line terminator characters from both ends.
- `Session` runs any sequence of requests. `Session.RunPreservesValid` proves
  that no sequence of requests can leave an item pointing at a missing category.

Things the store decides are parameters of the operations that need them:

- `newId` is the id the store would generate.
- `fault` is a failure of the store (an outage) on a create call.

Two details of the code are easy to misread:

- `listItems` treats an empty `categoryId` as no filter, because
  `apps/api/src/repositories/prisma.ts:22` tests it for truthiness.
- `createItem` checks `categoryId` for absence or emptiness only. It does not
  trim it, so `" "` passes that check and then fails the existence check.

## Model

| member | source | states |
|---|---|---|
| Text.Trim | apps/api/src/services/category.service.ts:14-15 | the trimmed name is empty exactly when the raw name is all whitespace (the `!name` test); otherwise it starts and ends with a non-whitespace character |
| Text.TrimIsInfix | apps/api/src/services/item.service.ts:18 | trimming only cuts whitespace off the two ends: the result is an infix of the input with blank margins |
| Text.TrimUnique | apps/api/src/services/item.service.ts:18 | conversely, any infix with blank margins and non-whitespace ends is the trimmed form, so `Trim` is exactly `trim` |
| Text.TrimIgnoresPadding | apps/api/src/services/category.service.ts:14 | surrounding a name with whitespace does not change what is stored |
| Text.TrimIdempotent | apps/api/src/services/category.service.ts:18 | a stored (trimmed) name trims to itself |
| Text.TrimFoodExample | apps/api/src/services/category.service.test.ts:46-53 | `"  Food  "` trims to `"Food"` |
| Tables.Filter | apps/api/src/repositories/prisma.ts:20-24 | a filtered listing holds exactly the rows satisfying the condition, and all rows when every row does |
| Tables.FilterCounts | apps/api/src/repositories/prisma.ts:20-24 | a filtered listing holds each selected row as many times as the table does, and no other row |
| Tables.Find | apps/api/src/repositories/prisma.ts:10 | the row found satisfies the condition and no earlier row does; nothing is found exactly when no row satisfies it |
| Tables.FilterConcat | apps/api/src/repositories/prisma.ts:23 | filtering keeps the relative (newest-first) order of the rows it selects |
| CategoryRepository.FindById | apps/api/src/repositories/prisma.ts:10 | a category is found exactly when its id exists, and the one found has that id |
| CategoryRepository.Create | apps/api/src/repositories/prisma.ts:9 | the insert succeeds exactly when neither the id nor the name is taken and the store does not fail; a clash raises P2002 and leaves the store as it was |
| CategoryRepository.DeleteById | apps/api/src/repositories/prisma.ts:12-14 | removes exactly the categories with that id and no item |
| CategoryRepository.DeleteByIdRemovesOne | apps/api/src/repositories/prisma.ts:12-14 | with unique ids, deleting removes exactly the one category with that id and keeps the others in their stored newest-first order |
| CategoryRepository.CreatePreservesValid | apps/api/src/repositories/prisma.ts:9 | the unique constraints keep ids and names unique |
| CategoryRepository.DeleteByIdPreservesValid | apps/api/src/repositories/prisma.ts:12-14 | deleting an unreferenced category keeps the store valid |
| ItemRepository.FindById | apps/api/src/repositories/prisma.ts:19 | an item is found exactly when its id exists |
| ItemRepository.Create | apps/api/src/repositories/prisma.ts:18 | the insert stores exactly the given fields under a new id; a taken id raises P2002 |
| ItemRepository.List | apps/api/src/repositories/prisma.ts:20-24 | an absent filter, or one whose `categoryId` is absent or empty, lists all items as stored; otherwise exactly the items with that `categoryId`, each as many times as it is stored |
| ItemRepository.ListKeepsOrder | apps/api/src/repositories/prisma.ts:23 | the listing keeps the stored newest-first order: listing a table split into a newer and an older part lists the newer part first |
| ItemRepository.DeleteById | apps/api/src/repositories/prisma.ts:25-27 | removes exactly the item with that id, and no category |
| ItemRepository.DeleteByIdRemovesOne | apps/api/src/repositories/prisma.ts:25-27 | with unique ids, deleting removes exactly the one item with that id and keeps the others in their stored newest-first order |
| ItemRepository.CountByCategoryId | apps/api/src/repositories/prisma.ts:28 | the count is the number of items that reference the category, so it is zero exactly when none does |
| ItemRepository.CreatePreservesValid | apps/api/src/repositories/prisma.ts:18 | inserting an item whose category exists keeps the store valid |
| ItemRepository.DeleteByIdPreservesValid | apps/api/src/repositories/prisma.ts:25-27 | deleting an item keeps the store valid |
| CategoryService.CreateCategory | apps/api/src/services/category.service.ts:13-28 | 400 "name is required" exactly for an absent or blank name, with no store call and no change; otherwise one create call with the trimmed name; success exactly when id and trimmed name are free, returning and storing the trimmed name; 409 "category already exists" exactly on P2002; any other store error is rethrown unchanged; failures leave the store unchanged |
| CategoryService.ListCategories | apps/api/src/services/category.service.ts:30-32 | returns the store's categories as they are, with one list call and no change |
| CategoryService.DeleteCategory | apps/api/src/services/category.service.ts:34-42 | 404 "category not found" exactly for an unknown id, after one lookup and no count; 409 "category is used by items" exactly when an item references it, after one lookup and one count; otherwise exactly that category is removed and the items are unchanged |
| CategoryService.CreateCategoryPreservesValid | apps/api/src/services/category.service.ts:17-27 | creating a category never breaks uniqueness or integrity |
| CategoryService.DeleteCategoryPreservesValid | apps/api/src/services/category.service.ts:38-41 | the deletion guard keeps every item's category in place |
| CategoryService.DeleteCategoryKeepsOrder | apps/api/src/services/category.service.ts:34-42 | a successful deletion removes just that category and leaves the others in their stored order |
| CategoryService.SameNameTwiceConflicts | apps/api/src/services/category.service.test.ts:64-71 | creating the same trimmed name a second time fails with 409 |
| CategoryService.DeletedCategoryNotListed | apps/api/src/services/category.service.test.ts:73-83 | after a successful delete, listing omits the category and keeps every other one |
| CategoryService.CreateTrimsName | apps/api/src/services/category.service.test.ts:46-53 | `"  Food  "` is stored and returned as `"Food"` |
| ItemService.CreateItem | apps/api/src/services/item.service.ts:13-32 | the first failing check decides: blank name gives 400 "name is required", then absent or negative quantity gives 400 "quantity must be a non-negative number", then absent or empty categoryId gives 400 "categoryId is required", then an unknown category gives 404 "category not found"; no store call before the three local checks pass; then exactly {trim(name), quantity, categoryId} is created; store errors pass through unchanged, a taken id surfacing as the store's own P2002; failures change nothing |
| ItemService.ListItems | apps/api/src/services/item.service.ts:34-36 | forwards the filter unchanged and returns all items, or exactly the items of the filtered category, each as many times as it is stored; read-only |
| ItemService.DeleteItem | apps/api/src/services/item.service.ts:38-43 | 404 "item not found" exactly for an unknown id, with no delete call; otherwise exactly that item is removed |
| ItemService.CreateItemPreservesValid | apps/api/src/services/item.service.ts:28-31 | the existence check keeps every new item's category in place |
| ItemService.DeleteItemPreservesValid | apps/api/src/services/item.service.ts:38-43 | deleting an item keeps the store valid |
| ItemService.DeleteItemKeepsOrder | apps/api/src/services/item.service.ts:38-43 | deleting a stored item succeeds, removes just that item and leaves the others in their stored order |
| ItemService.ZeroQuantityAccepted | apps/api/src/services/item.service.ts:23-25 | quantity 0 passes, because the test is a strict `< 0` |
| ItemService.DeletedItemNotListed | apps/api/src/services/item.service.ts:38-43 | after a successful delete no listing shows the item |
| Session.ApplyPreservesValid | apps/api/src/services/category.service.ts:38-41 | every single request, however it ends, keeps the store valid |
| Session.RunPreservesValid | apps/api/src/services/item.service.ts:28-31 | any sequence of requests keeps the store valid |
| Session.NoDanglingItems | apps/api/src/services/category.service.ts:38-41 | after any sequence of requests every item's category exists |
| Session.FoodAndBread | apps/api/src/e2e/api.e2e.test.ts:24-46 | create "Food", create "Bread" in it, and deleting "Food" is refused with 409, as in the test; two further steps go beyond it: deleting "Bread", then deleting "Food" succeeds and empties the store |
| Session.CategoryCreated | apps/api/src/services/category.service.ts:13-28 | creating an already trimmed, free name under a free id puts exactly that category in front |
| Session.ItemCreated | apps/api/src/services/item.service.ts:13-32 | creating a trimmed name with a valid quantity in an existing category under a free id puts exactly that item in front |
| Session.TwoCategoriesCreated | apps/api/src/e2e/api.e2e.test.ts:49-54 | categories "A" and "B" are created in an empty store, "B" listed first |
| Session.OneItemCreated | apps/api/src/e2e/api.e2e.test.ts:56-60 | item "X" is created in A's category |
| Session.SecondItemInFront | apps/api/src/e2e/api.e2e.test.ts:61-65 | item "Y" in B's category goes in front of "X" |
| Session.TwoItemsCreated | apps/api/src/e2e/api.e2e.test.ts:56-65 | after both item creations the items are "Y" then "X" |
| Session.ListByFirstCategory | apps/api/src/e2e/api.e2e.test.ts:67-72 | listing by A's id a store holding "Y" (in B) and "X" (in A) gives "X" alone |
| Session.FilterByCategory | apps/api/src/e2e/api.e2e.test.ts:48-73 | with "X" in category A and "Y" in category B, listing by A's id gives exactly one item, and it is in A |

## Left out

- HTTP routing, status rendering and the mapping of unknown errors to 500 (`apps/api/src/app.ts`): framework glue outside the services.
- The legacy bootstrap `apps/api/src/index.ts`: it repeats the same rules inline. Its messages and codes agree with the model.
- Prisma itself, connection handling and async/Promise mechanics: the repositories are pure functions on an abstract store.
- `createdAt` and the clock: rows are kept newest first, which stands for ordering by descending `createdAt`.
- Ids generated by the store: they are the `newId` parameter.
- Store failures on `findById`, `list`, `countByCategoryId` and `deleteById`: only the two create calls take a `fault`. The services do not catch errors from the other calls, so such errors would pass through unchanged.
- Prisma's `P2025` error for deleting a missing row: the services look the row up first, and in the sequential model it is still there when deleted.
- The schema's foreign key from items to categories: it is left out so that integrity rests on the services' checks alone.
- The time-of-check/time-of-use race between counting items and deleting a category: this is concurrency, and the model is sequential.
- Quantity as a JavaScript number: it is a `real`. NaN and Infinity are left out (NaN would pass both `typeof` and `< 0`). A non-number quantity is modelled as absent.
- Non-object errors and errors without a `code`: both are a `Fault` whose `code` is absent, and both are rethrown unchanged.
- Test doubles, e2e plumbing, `reset-db.ts`, lint and mutation-testing configuration, and the shared type declarations.

=== FILE: category_repository.dfy ===
/** `CategoryRepository` over the abstract store: what Prisma does with the
    category table, with the store's unique constraints but nothing else. */
module CategoryRepository {
  import opened Wrappers
  import opened Tables
  import opened Entities
  import opened Database

  /** `findById`: the category with this id, if there is one. */
  function FindById(s: Store, id: Id): (r: Option<Category>)
    ensures r.Some? <==> id in CategoryIds(s)
    ensures r.Some? ==> r.value in s.categories && r.value.id == id
  {
    Find(s.categories, (c: Category) => c.id == id)
  }

  /** `create`: insert a category named `name` under the id `id` the store
      generates. A clash with an existing id or name violates a unique constraint
      and throws P2002; `fault` is any other failure of the store (an outage),
      which throws before anything is written. */
  function Create(s: Store, id: Id, name: string, fault: Option<Fault>): (r: (Result<Category, Fault>, Store))
    ensures fault.Some? ==> r == (Failure(fault.value), s)
    ensures fault.None? ==> (r.0.Success? <==> id !in CategoryIds(s) && name !in CategoryNames(s))
    ensures fault.None? && r.0.Failure? ==> r.0.error.code == Some(UniqueViolation)
    ensures r.0.Failure? ==> r.1 == s
    ensures r.0.Success? ==> r.0.value == Category(id, name)
    ensures r.0.Success? ==> r.1 == s.(categories := [r.0.value] + s.categories)
  {
    if fault.Some? then
      (Failure(fault.value), s)
    else if id in CategoryIds(s) || name in CategoryNames(s) then
      (Failure(Fault(Some(UniqueViolation), "Unique constraint failed")), s)
    else
      var c := Category(id, name);
      (Success(c), s.(categories := [c] + s.categories))
  }

  /** `deleteById`: remove the category with this id; all items stay. */
  function DeleteById(s: Store, id: Id): (r: Store)
    ensures r.items == s.items
    ensures forall c :: c in r.categories <==> c in s.categories && c.id != id
    ensures id !in CategoryIds(r)
  {
    s.(categories := Filter(s.categories, (c: Category) => c.id != id))
  }

  /** With unique ids, deleting removes exactly the one category at position
      `k` and leaves the others in their stored (newest-first) order. */
  lemma DeleteByIdRemovesOne(s: Store, id: Id, k: nat)
    requires Distinct(s.categories, CategoryKey)
    requires k < |s.categories| && s.categories[k].id == id
    ensures DeleteById(s, id).categories == s.categories[..k] + s.categories[k + 1..]
  {
    var cs := s.categories;
    assert cs == cs[..k] + [cs[k]] + cs[k + 1..];
    forall i | 0 <= i < |cs[..k]| ensures cs[..k][i].id != id {
      assert CategoryKey(cs[i]) != CategoryKey(cs[k]);
    }
    forall j | k < j < |cs| ensures cs[j].id != id {
      assert CategoryKey(cs[k]) != CategoryKey(cs[j]);
    }
    FilterDropOne(cs[..k], cs[k], cs[k + 1..], (c: Category) => c.id != id);
  }

  /** Inserting a category keeps the store valid: the unique constraints reject
      any clash, and no item loses its category. */
  lemma CreatePreservesValid(s: Store, id: Id, name: string, fault: Option<Fault>)
    requires Valid(s)
    ensures Valid(Create(s, id, name, fault).1)
  {
    var (res, s') := Create(s, id, name, fault);
    if res.Success? {
      var c := res.value;
      DistinctCons(c, s.categories, CategoryKey);
      DistinctCons(c, s.categories, CategoryName);
      assert CategoryIds(s) <= CategoryIds(s');
    }
  }

  /** Deleting a category that no item references keeps the store valid. */
  lemma DeleteByIdPreservesValid(s: Store, id: Id)
    requires Valid(s)
    requires forall it | it in s.items :: it.categoryId != id
    ensures Valid(DeleteById(s, id))
  {
    var s' := DeleteById(s, id);
    FilterDistinct(s.categories, (c: Category) => c.id != id, CategoryKey);
    FilterDistinct(s.categories, (c: Category) => c.id != id, CategoryName);
    forall it | it in s'.items ensures it.categoryId in CategoryIds(s') {
      var c :| c in s.categories && c.id == it.categoryId;
      assert c in s'.categories;
    }
  }
}

=== FILE: category_service.dfy ===
/** `CategoryService`: the rules for creating, listing and deleting categories. */
module CategoryService {
  import opened Wrappers
  import opened Text
  import opened Entities
  import opened Database
  import opened Outcomes
  import Tables
  import CategoryRepository
  import ItemRepository

  /** The name is absent, or trims to the empty string (a falsy name). */
  predicate Blank(nameRaw: Option<string>) {
    nameRaw.None? || AllWhitespace(nameRaw.value)
  }

  /** `createCategory(nameRaw)`. `newId` is the id the store would generate and
      `fault` a failure of the store other than its unique constraints.
      A blank name fails with 400 before the store is asked anything; otherwise
      the store is asked to create the trimmed name, a unique-constraint
      violation (P2002) becomes 409, and any other store error is rethrown as it is. */
  function CreateCategory(s: Store, nameRaw: Option<string>, newId: Id, fault: Option<Fault>): (r: Step<Category>)
    ensures r.result == Failure(NameRequired) <==> Blank(nameRaw)
    ensures Blank(nameRaw) ==> r.store == s && r.calls == []
    ensures !Blank(nameRaw) ==> r.calls == [CategoryCreate(Trim(nameRaw.value))]
    ensures r.result.Success? <==>
              && !Blank(nameRaw) && fault.None?
              && newId !in CategoryIds(s) && Trim(nameRaw.value) !in CategoryNames(s)
    ensures r.result.Success? ==> r.result.value == Category(newId, Trim(nameRaw.value))
    ensures r.result.Success? ==>
              r.store.categories == [r.result.value] + s.categories && r.store.items == s.items
    ensures r.result == Failure(CategoryExists) <==>
              && !Blank(nameRaw)
              && if fault.Some? then fault.value.code == Some(UniqueViolation)
                 else newId in CategoryIds(s) || Trim(nameRaw.value) in CategoryNames(s)
    ensures r.result.Failure? && r.result.error.Other? <==>
              !Blank(nameRaw) && fault.Some? && fault.value.code != Some(UniqueViolation)
    ensures r.result.Failure? && r.result.error.Other? ==> r.result.error.fault == fault.value
    ensures r.result.Failure? ==> r.store == s
  {
    if nameRaw.None? || Trim(nameRaw.value) == [] then
      Step(Failure(NameRequired), s, [])
    else
      var name := Trim(nameRaw.value);
      var (created, s') := CategoryRepository.Create(s, newId, name, fault);
      var calls := [CategoryCreate(name)];
      match created
      case Success(c) => Step(Success(c), s', calls)
      case Failure(err) =>
        if err.code == Some(UniqueViolation) then Step(Failure(CategoryExists), s', calls)
        else Step(Failure(Other(err)), s', calls)
  }

  /** `listCategories()`: the store's categories as they are, newest first,
      with nothing changed. */
  function ListCategories(s: Store): (r: Step<seq<Category>>)
    ensures r.result == Success(s.categories)
    ensures r.store == s && r.calls == [CategoryList]
  {
    Step(Success(s.categories), s, [CategoryList])
  }

  /** `deleteCategory(id)`: 404 for an unknown id (the items are not even
      counted), 409 while some item references the category, and otherwise the
      category, and only it, is removed. */
  function DeleteCategory(s: Store, id: Id): (r: Step<()>)
    ensures r.result == Failure(CategoryNotFound) <==> id !in CategoryIds(s)
    ensures id !in CategoryIds(s) ==> r.calls == [CategoryFindById(id)]
    ensures r.result == Failure(CategoryInUse) <==>
              id in CategoryIds(s) && id in ReferencedCategoryIds(s)
    ensures r.result == Failure(CategoryInUse) ==> r.calls == [CategoryFindById(id), ItemCountByCategoryId(id)]
    ensures r.result.Success? <==> id in CategoryIds(s) && id !in ReferencedCategoryIds(s)
    ensures r.result.Failure? ==> r.store == s
    ensures r.result.Success? ==>
              && r.store.items == s.items
              && (forall c :: c in r.store.categories <==> c in s.categories && c.id != id)
              && r.calls == [CategoryFindById(id), ItemCountByCategoryId(id), CategoryDeleteById(id)]
  {
    if CategoryRepository.FindById(s, id).None? then
      Step(Failure(CategoryNotFound), s, [CategoryFindById(id)])
    else
      var itemsCount := ItemRepository.CountByCategoryId(s, id);
      var calls := [CategoryFindById(id), ItemCountByCategoryId(id)];
      if itemsCount > 0 then
        Step(Failure(CategoryInUse), s, calls)
      else
        Step(Success(()), CategoryRepository.DeleteById(s, id), calls + [CategoryDeleteById(id)])
  }

  /** Creating a category keeps the store valid. */
  lemma CreateCategoryPreservesValid(s: Store, nameRaw: Option<string>, newId: Id, fault: Option<Fault>)
    requires Valid(s)
    ensures Valid(CreateCategory(s, nameRaw, newId, fault).store)
  {
    if !Blank(nameRaw) {
      CategoryRepository.CreatePreservesValid(s, newId, Trim(nameRaw.value), fault);
    }
  }

  /** Deleting a category keeps the store valid: the deletion guard makes sure
      no item is left pointing at it. */
  lemma DeleteCategoryPreservesValid(s: Store, id: Id)
    requires Valid(s)
    ensures Valid(DeleteCategory(s, id).store)
  {
    if DeleteCategory(s, id).result.Success? {
      CategoryRepository.DeleteByIdPreservesValid(s, id);
    }
  }

  /** A successful deletion removes just that category and keeps the others in
      their stored (newest-first) order. */
  lemma DeleteCategoryKeepsOrder(s: Store, id: Id, k: nat)
    requires Tables.Distinct(s.categories, CategoryKey)
    requires k < |s.categories| && s.categories[k].id == id
    ensures DeleteCategory(s, id).result.Success? ==>
              DeleteCategory(s, id).store.categories == s.categories[..k] + s.categories[k + 1..]
  {
    CategoryRepository.DeleteByIdRemovesOne(s, id, k);
  }

  /** Creating the same trimmed name twice fails the second time with 409. */
  lemma SameNameTwiceConflicts(s: Store, first: Option<string>, second: Option<string>, id1: Id, id2: Id)
    requires CreateCategory(s, first, id1, None).result.Success?
    requires second.Some? && Trim(second.value) == Trim(first.value)
    ensures CreateCategory(CreateCategory(s, first, id1, None).store, second, id2, None).result
            == Failure(CategoryExists)
  {
    var c := CreateCategory(s, first, id1, None).result.value;
    assert c in CreateCategory(s, first, id1, None).store.categories;
  }

  /** After a successful deletion, listing the categories shows every category
      but the deleted one. */
  lemma DeletedCategoryNotListed(s: Store, id: Id)
    requires DeleteCategory(s, id).result.Success?
    ensures var listed := ListCategories(DeleteCategory(s, id).store).result.value;
            && (forall c | c in listed :: c.id != id)
            && (forall c | c in s.categories && c.id != id :: c in listed)
  {
  }

  /** The example of the category tests: `"  Food  "` is stored and returned as `"Food"`. */
  lemma CreateTrimsName(s: Store, newId: Id)
    requires newId !in CategoryIds(s) && "Food" !in CategoryNames(s)
    ensures CreateCategory(s, Some("  Food  "), newId, None).result == Success(Category(newId, "Food"))
  {
    TrimFoodExample();
  }
}

=== FILE: database.dfy ===
/** The abstract two-table store behind the repositories, its integrity
    invariant, and the repository calls the services issue against it. */
module Database {
  import opened Wrappers
  import opened Tables
  import opened Entities

  /** Both tables, newest row first: the order in which the repositories list
      rows (by descending creation time). */
  datatype Store = Store(categories: seq<Category>, items: seq<Item>)

  /** The optional argument of `itemRepo.list`. */
  datatype ItemFilter = ItemFilter(categoryId: Option<Id>)

  /** One call a service makes on a repository, recorded with its arguments. */
  datatype Call =
    | CategoryCreate(name: string)
    | CategoryFindById(id: Id)
    | CategoryList
    | CategoryDeleteById(id: Id)
    | ItemCreate(name: string, quantity: real, categoryId: Id)
    | ItemFindById(id: Id)
    | ItemList(filter: Option<ItemFilter>)
    | ItemDeleteById(id: Id)
    | ItemCountByCategoryId(categoryId: Id)

  /** The ids of all categories. */
  function CategoryIds(s: Store): set<Id> {
    set c | c in s.categories :: c.id
  }

  /** The names of all categories. */
  function CategoryNames(s: Store): set<string> {
    set c | c in s.categories :: c.name
  }

  /** The ids of all items. */
  function ItemIds(s: Store): set<Id> {
    set it | it in s.items :: it.id
  }

  /** The category ids that some item references. */
  function ReferencedCategoryIds(s: Store): set<Id> {
    set it | it in s.items :: it.categoryId
  }

  /** Referential integrity: every item's `categoryId` names an existing category. */
  ghost predicate Integrity(s: Store) {
    forall it | it in s.items :: it.categoryId in CategoryIds(s)
  }

  /** The store's invariant: primary keys and category names are unique, and no
      item dangles. */
  ghost predicate Valid(s: Store) {
    && Distinct(s.categories, CategoryKey)
    && Distinct(s.categories, CategoryName)
    && Distinct(s.items, ItemKey)
    && Integrity(s)
  }

  /** The store both repositories start from. */
  function Empty(): (s: Store)
    ensures Valid(s)
    ensures CategoryIds(s) == {} && ItemIds(s) == {}
  {
    Store([], [])
  }
}

=== FILE: entities.dfy ===
/** The two record kinds of the store, as the repositories hand them out
    (`CategoryEntity` and `ItemEntity`), and the errors the store raises. */
module Entities {
  import opened Wrappers

  /** Identifiers are opaque strings generated by the store. */
  type Id = string

  /** A category; its name is unique among all categories. */
  datatype Category = Category(id: Id, name: string)

  /** An item: a quantity of something filed under one category. Quantities are
      JavaScript numbers, modelled as reals. */
  datatype Item = Item(id: Id, name: string, quantity: real, categoryId: Id)

  /** An error thrown by the store. `code` is the error code Prisma attaches to
      its known request errors; it is absent for anything else. */
  datatype Fault = Fault(code: Option<string>, detail: string)

  /** Prisma's code for a violated unique constraint. */
  const UniqueViolation: string := "P2002"

  /** The key of a category row. */
  function CategoryKey(c: Category): Id {
    c.id
  }

  /** The unique name of a category row. */
  function CategoryName(c: Category): string {
    c.name
  }

  /** The key of an item row. */
  function ItemKey(it: Item): Id {
    it.id
  }
}

=== FILE: item_repository.dfy ===
/** `ItemRepository` over the abstract store: what Prisma does with the item
    table. The schema's foreign key is deliberately not part of this model, so
    that referential integrity rests on the services' checks alone. */
module ItemRepository {
  import opened Wrappers
  import opened Tables
  import opened Entities
  import opened Database

  /** `findById`: the item with this id, if there is one. */
  function FindById(s: Store, id: Id): (r: Option<Item>)
    ensures r.Some? <==> id in ItemIds(s)
    ensures r.Some? ==> r.value in s.items && r.value.id == id
  {
    Find(s.items, (it: Item) => it.id == id)
  }

  /** `create`: insert an item under the id `id` the store generates. A clash
      with an existing id violates the primary key and throws P2002; `fault` is
      any other failure of the store, which throws before anything is written. */
  function Create(s: Store, id: Id, name: string, quantity: real, categoryId: Id, fault: Option<Fault>)
    : (r: (Result<Item, Fault>, Store))
    ensures fault.Some? ==> r == (Failure(fault.value), s)
    ensures fault.None? ==> (r.0.Success? <==> id !in ItemIds(s))
    ensures fault.None? && r.0.Failure? ==> r.0.error.code == Some(UniqueViolation)
    ensures r.0.Failure? ==> r.1 == s
    ensures r.0.Success? ==> r.0.value == Item(id, name, quantity, categoryId)
    ensures r.0.Success? ==> r.1 == s.(items := [r.0.value] + s.items)
  {
    if fault.Some? then
      (Failure(fault.value), s)
    else if id in ItemIds(s) then
      (Failure(Fault(Some(UniqueViolation), "Unique constraint failed")), s)
    else
      var it := Item(id, name, quantity, categoryId);
      (Success(it), s.(items := [it] + s.items))
  }

  /** The filter names a category: it is present and its `categoryId` is a
      non-empty string (an empty string is falsy, so it filters nothing). */
  predicate Filters(filter: Option<ItemFilter>) {
    filter.Some? && filter.value.categoryId.Some? && filter.value.categoryId.value != ""
  }

  /** `list`: all items, or exactly the items of one category, each as often
      as it is stored, newest first (see `ListKeepsOrder`). */
  function List(s: Store, filter: Option<ItemFilter>): (r: seq<Item>)
    ensures !Filters(filter) ==> r == s.items
    ensures Filters(filter) ==>
              forall it :: it in r <==> it in s.items && it.categoryId == filter.value.categoryId.value
    ensures Filters(filter) ==>
              forall it :: multiset(r)[it] ==
                             if it.categoryId == filter.value.categoryId.value then multiset(s.items)[it] else 0
  {
    if Filters(filter) then
      var categoryId := filter.value.categoryId.value;
      var refers := (it: Item) => it.categoryId == categoryId;
      FilterCounts(s.items, refers);
      Filter(s.items, refers)
    else
      s.items
  }

  /** `deleteById`: remove the item with this id; everything else stays. */
  function DeleteById(s: Store, id: Id): (r: Store)
    ensures r.categories == s.categories
    ensures forall it :: it in r.items <==> it in s.items && it.id != id
    ensures id !in ItemIds(r)
  {
    s.(items := Filter(s.items, (it: Item) => it.id != id))
  }

  /** Listing keeps the stored order: the items listed from an older part of
      the table come after those listed from a newer part. */
  lemma ListKeepsOrder(s: Store, newer: seq<Item>, older: seq<Item>, filter: Option<ItemFilter>)
    requires s.items == newer + older
    ensures List(s, filter) == List(s.(items := newer), filter) + List(s.(items := older), filter)
  {
    if Filters(filter) {
      var categoryId := filter.value.categoryId.value;
      FilterConcat(newer, older, (it: Item) => it.categoryId == categoryId);
    }
  }

  /** With unique ids, deleting removes exactly the one item at position `k`
      and leaves the others in their stored (newest-first) order. */
  lemma DeleteByIdRemovesOne(s: Store, id: Id, k: nat)
    requires Distinct(s.items, ItemKey)
    requires k < |s.items| && s.items[k].id == id
    ensures DeleteById(s, id).items == s.items[..k] + s.items[k + 1..]
  {
    var its := s.items;
    assert its == its[..k] + [its[k]] + its[k + 1..];
    forall i | 0 <= i < |its[..k]| ensures its[..k][i].id != id {
      assert ItemKey(its[i]) != ItemKey(its[k]);
    }
    forall j | k < j < |its| ensures its[j].id != id {
      assert ItemKey(its[k]) != ItemKey(its[j]);
    }
    FilterDropOne(its[..k], its[k], its[k + 1..], (it: Item) => it.id != id);
  }

  /** `countByCategoryId`: how many items reference the category; zero exactly
      when none does. */
  function CountByCategoryId(s: Store, categoryId: Id): (n: nat)
    ensures n <= |s.items|
    ensures n == 0 <==> forall it | it in s.items :: it.categoryId != categoryId
    ensures Distinct(s.items, ItemKey) ==>
              n == |set it | it in s.items && it.categoryId == categoryId|
  {
    var refers := (it: Item) => it.categoryId == categoryId;
    var r := Filter(s.items, refers);
    FilterEmpty(s.items, refers);
    assert Distinct(s.items, ItemKey) ==>
             |r| == |set it | it in s.items && it.categoryId == categoryId| by {
      if Distinct(s.items, ItemKey) {
        FilterDistinct(s.items, refers, ItemKey);
        DistinctCard(r, ItemKey);
        assert (set it | it in r) == (set it | it in s.items && it.categoryId == categoryId);
      }
    }
    |r|
  }

  /** Inserting an item whose category exists keeps the store valid. */
  lemma CreatePreservesValid(s: Store, id: Id, name: string, quantity: real, categoryId: Id, fault: Option<Fault>)
    requires Valid(s)
    requires categoryId in CategoryIds(s)
    ensures Valid(Create(s, id, name, quantity, categoryId, fault).1)
  {
    var (res, s') := Create(s, id, name, quantity, categoryId, fault);
    if res.Success? {
      DistinctCons(res.value, s.items, ItemKey);
    }
  }

  /** Deleting an item keeps the store valid: nothing references items. */
  lemma DeleteByIdPreservesValid(s: Store, id: Id)
    requires Valid(s)
    ensures Valid(DeleteById(s, id))
  {
    FilterDistinct(s.items, (it: Item) => it.id != id, ItemKey);
  }
}

=== FILE: item_service.dfy ===
/** `ItemService`: the rules for creating, listing and deleting items. */
module ItemService {
  import opened Wrappers
  import opened Text
  import opened Entities
  import opened Database
  import opened Outcomes
  import Tables
  import CategoryRepository
  import ItemRepository

  /** The request body of `createItem`; every field may be missing. A quantity
      that is not a JavaScript number is modelled as missing. */
  datatype CreateItemInput = CreateItemInput(name: Option<string>, quantity: Option<real>, categoryId: Option<Id>)

  /** The name is absent, or trims to the empty string. */
  predicate NameMissing(input: CreateItemInput) {
    input.name.None? || AllWhitespace(input.name.value)
  }

  /** The quantity is absent (or not a number), or negative; zero is fine. */
  predicate QuantityBad(input: CreateItemInput) {
    input.quantity.None? || input.quantity.value < 0.0
  }

  /** The category id is absent or the empty string; it is not trimmed, so a
      blank id like `" "` is present. */
  predicate CategoryIdMissing(input: CreateItemInput) {
    input.categoryId.None? || input.categoryId.value == ""
  }

  /** The input passes the three checks that need no store. */
  predicate WellFormed(input: CreateItemInput) {
    !NameMissing(input) && !QuantityBad(input) && !CategoryIdMissing(input)
  }

  /** `createItem(input)`. `newId` is the id the store would generate and
      `fault` a failure of the store other than its primary key. The checks run
      in order, name, quantity, categoryId, category existence, and the first
      one that fails decides the error; the store is not consulted before the
      three local checks pass. Only then is the store asked to create exactly
      the trimmed name, the quantity and the category id; its errors pass
      through unchanged. */
  function CreateItem(s: Store, input: CreateItemInput, newId: Id, fault: Option<Fault>): (r: Step<Item>)
    ensures r.result == Failure(NameRequired) <==> NameMissing(input)
    ensures r.result == Failure(QuantityInvalid) <==> !NameMissing(input) && QuantityBad(input)
    ensures r.result == Failure(CategoryIdRequired) <==>
              !NameMissing(input) && !QuantityBad(input) && CategoryIdMissing(input)
    ensures r.result == Failure(CategoryNotFound) <==>
              WellFormed(input) && input.categoryId.value !in CategoryIds(s)
    ensures !WellFormed(input) ==> r.calls == [] && r.store == s
    ensures WellFormed(input) && input.categoryId.value !in CategoryIds(s) ==>
              r.calls == [CategoryFindById(input.categoryId.value)]
    ensures WellFormed(input) && input.categoryId.value in CategoryIds(s) ==>
              r.calls == [ CategoryFindById(input.categoryId.value),
                           ItemCreate(Trim(input.name.value), input.quantity.value, input.categoryId.value) ]
    ensures r.result.Success? <==>
              && WellFormed(input) && input.categoryId.value in CategoryIds(s)
              && fault.None? && newId !in ItemIds(s)
    ensures r.result.Success? ==>
              r.result.value == Item(newId, Trim(input.name.value), input.quantity.value, input.categoryId.value)
    ensures r.result.Success? ==> r.store == s.(items := [r.result.value] + s.items)
    ensures r.result.Failure? && r.result.error.Other? <==>
              && WellFormed(input) && input.categoryId.value in CategoryIds(s)
              && (fault.Some? || newId in ItemIds(s))
    ensures r.result.Failure? && r.result.error.Other? && fault.Some? ==> r.result.error.fault == fault.value
    ensures r.result.Failure? && r.result.error.Other? && fault.None? ==>
              r.result.error.fault.code == Some(UniqueViolation)
    ensures r.result.Failure? ==> r.store == s
  {
    if input.name.None? || Trim(input.name.value) == [] then
      Step(Failure(NameRequired), s, [])
    else if input.quantity.None? || input.quantity.value < 0.0 then
      Step(Failure(QuantityInvalid), s, [])
    else if input.categoryId.None? || input.categoryId.value == "" then
      Step(Failure(CategoryIdRequired), s, [])
    else
      var name := Trim(input.name.value);
      var quantity := input.quantity.value;
      var categoryId := input.categoryId.value;
      var lookup := [CategoryFindById(categoryId)];
      if CategoryRepository.FindById(s, categoryId).None? then
        Step(Failure(CategoryNotFound), s, lookup)
      else
        var (created, s') := ItemRepository.Create(s, newId, name, quantity, categoryId, fault);
        var calls := lookup + [ItemCreate(name, quantity, categoryId)];
        match created
        case Success(it) => Step(Success(it), s', calls)
        case Failure(err) => Step(Failure(Other(err)), s', calls)
  }

  /** `listItems(filter)`: hands the filter to the store unchanged and returns
      all items, or, when the filter names a (non-empty) category id, exactly
      the items of that category; the id need not exist. Nothing changes. */
  function ListItems(s: Store, filter: Option<ItemFilter>): (r: Step<seq<Item>>)
    ensures r.store == s && r.calls == [ItemList(filter)] && r.result.Success?
    ensures !ItemRepository.Filters(filter) ==> r.result.value == s.items
    ensures ItemRepository.Filters(filter) ==>
              forall it :: it in r.result.value <==>
                             it in s.items && it.categoryId == filter.value.categoryId.value
    ensures ItemRepository.Filters(filter) ==>
              forall it :: multiset(r.result.value)[it] ==
                             if it.categoryId == filter.value.categoryId.value then multiset(s.items)[it] else 0
  {
    Step(Success(ItemRepository.List(s, filter)), s, [ItemList(filter)])
  }

  /** `deleteItem(id)`: 404 and no delete for an unknown id; otherwise exactly
      that item is removed. */
  function DeleteItem(s: Store, id: Id): (r: Step<()>)
    ensures r.result == Failure(ItemNotFound) <==> id !in ItemIds(s)
    ensures id !in ItemIds(s) ==> r.store == s && r.calls == [ItemFindById(id)]
    ensures id in ItemIds(s) ==> r.result == Success(()) && r.calls == [ItemFindById(id), ItemDeleteById(id)]
    ensures id in ItemIds(s) ==>
              && r.store.categories == s.categories
              && forall it :: it in r.store.items <==> it in s.items && it.id != id
  {
    if ItemRepository.FindById(s, id).None? then
      Step(Failure(ItemNotFound), s, [ItemFindById(id)])
    else
      Step(Success(()), ItemRepository.DeleteById(s, id), [ItemFindById(id), ItemDeleteById(id)])
  }

  /** Creating an item keeps the store valid: the existence check makes sure
      the new item's category is there. */
  lemma CreateItemPreservesValid(s: Store, input: CreateItemInput, newId: Id, fault: Option<Fault>)
    requires Valid(s)
    ensures Valid(CreateItem(s, input, newId, fault).store)
  {
    if WellFormed(input) && input.categoryId.value in CategoryIds(s) {
      ItemRepository.CreatePreservesValid(
        s, newId, Trim(input.name.value), input.quantity.value, input.categoryId.value, fault);
    }
  }

  /** Deleting an item keeps the store valid. */
  lemma DeleteItemPreservesValid(s: Store, id: Id)
    requires Valid(s)
    ensures Valid(DeleteItem(s, id).store)
  {
    if id in ItemIds(s) {
      ItemRepository.DeleteByIdPreservesValid(s, id);
    }
  }

  /** Deleting a stored item succeeds, removes just that item and keeps the
      others in their stored (newest-first) order. */
  lemma DeleteItemKeepsOrder(s: Store, id: Id, k: nat)
    requires Tables.Distinct(s.items, ItemKey)
    requires k < |s.items| && s.items[k].id == id
    ensures DeleteItem(s, id).result == Success(())
    ensures DeleteItem(s, id).store.items == s.items[..k] + s.items[k + 1..]
  {
    assert s.items[k] in s.items;
    ItemRepository.DeleteByIdRemovesOne(s, id, k);
  }

  /** A quantity of zero passes the quantity check: the test is a strict `< 0`. */
  lemma ZeroQuantityAccepted(s: Store, name: string, categoryId: Id, newId: Id)
    requires !AllWhitespace(name) && categoryId != ""
    requires categoryId in CategoryIds(s) && newId !in ItemIds(s)
    ensures CreateItem(s, CreateItemInput(Some(name), Some(0.0), Some(categoryId)), newId, None).result
            == Success(Item(newId, Trim(name), 0.0, categoryId))
  {
    assert WellFormed(CreateItemInput(Some(name), Some(0.0), Some(categoryId)));
  }

  /** After a successful deletion the item no longer shows up in any listing. */
  lemma DeletedItemNotListed(s: Store, id: Id, filter: Option<ItemFilter>)
    requires DeleteItem(s, id).result.Success?
    ensures forall it | it in ListItems(DeleteItem(s, id).store, filter).result.value :: it.id != id
  {
  }
}

=== FILE: outcomes.dfy ===
/** What a service call yields: a value or an error, the store afterwards, and
    the repository calls it issued, in order. */
module Outcomes {
  import opened Wrappers
  import opened Entities
  import opened Database

  /** The errors a service throws: an `HttpError` carrying the status the HTTP
      layer answers with, or a store error passed through as it was thrown. */
  datatype ServiceError =
    | HttpError(statusCode: int, message: string)
    | Other(fault: Fault)

  /** The outcome of one service call. */
  datatype Step<T> = Step(result: Result<T, ServiceError>, store: Store, calls: seq<Call>)

  const NameRequired: ServiceError := HttpError(400, "name is required")
  const QuantityInvalid: ServiceError := HttpError(400, "quantity must be a non-negative number")
  const CategoryIdRequired: ServiceError := HttpError(400, "categoryId is required")
  const CategoryNotFound: ServiceError := HttpError(404, "category not found")
  const ItemNotFound: ServiceError := HttpError(404, "item not found")
  const CategoryExists: ServiceError := HttpError(409, "category already exists")
  const CategoryInUse: ServiceError := HttpError(409, "category is used by items")
}

=== FILE: session.dfy ===
/** The two services run one request after another against one store: a
    sequential state machine whose states are stores. */
module Session {
  import opened Wrappers
  import opened Entities
  import opened Database
  import opened Outcomes
  import Text
  import CategoryService
  import ItemService
  import ItemRepository

  /** One service call with everything the store decides for it: the id it would
      generate and any failure it suffers. */
  datatype Request =
    | CreateCategory(nameRaw: Option<string>, newId: Id, fault: Option<Fault>)
    | ListCategories
    | DeleteCategory(id: Id)
    | CreateItem(input: ItemService.CreateItemInput, newId: Id, fault: Option<Fault>)
    | ListItems(filter: Option<ItemFilter>)
    | DeleteItem(id: Id)

  /** The store after serving one request. */
  function Apply(s: Store, req: Request): Store {
    match req
    case CreateCategory(nameRaw, newId, fault) => CategoryService.CreateCategory(s, nameRaw, newId, fault).store
    case ListCategories => CategoryService.ListCategories(s).store
    case DeleteCategory(id) => CategoryService.DeleteCategory(s, id).store
    case CreateItem(input, newId, fault) => ItemService.CreateItem(s, input, newId, fault).store
    case ListItems(filter) => ItemService.ListItems(s, filter).store
    case DeleteItem(id) => ItemService.DeleteItem(s, id).store
  }

  /** The store after serving `reqs` in order. */
  function Run(s: Store, reqs: seq<Request>): Store
    decreases |reqs|
  {
    if reqs == [] then s else Run(Apply(s, reqs[0]), reqs[1..])
  }

  /** Every request keeps the store valid, whatever it asks and however it ends. */
  lemma ApplyPreservesValid(s: Store, req: Request)
    requires Valid(s)
    ensures Valid(Apply(s, req))
  {
    match req
    case CreateCategory(nameRaw, newId, fault) =>
      CategoryService.CreateCategoryPreservesValid(s, nameRaw, newId, fault);
    case ListCategories =>
    case DeleteCategory(id) =>
      CategoryService.DeleteCategoryPreservesValid(s, id);
    case CreateItem(input, newId, fault) =>
      ItemService.CreateItemPreservesValid(s, input, newId, fault);
    case ListItems(filter) =>
    case DeleteItem(id) =>
      ItemService.DeleteItemPreservesValid(s, id);
  }

  /** Any sequence of requests served from a valid store leaves it valid. */
  lemma {:induction false} RunPreservesValid(s: Store, reqs: seq<Request>)
    requires Valid(s)
    ensures Valid(Run(s, reqs))
    decreases |reqs|
  {
    if reqs != [] {
      ApplyPreservesValid(s, reqs[0]);
      RunPreservesValid(Apply(s, reqs[0]), reqs[1..]);
    }
  }

  /** No sequence of requests served from a valid store leaves an item naming
      a missing category. */
  lemma NoDanglingItems(s: Store, reqs: seq<Request>)
    requires Valid(s)
    ensures forall it | it in Run(s, reqs).items :: it.categoryId in CategoryIds(Run(s, reqs))
  {
    RunPreservesValid(s, reqs);
  }

  /** The end-to-end scenario of `api.e2e.test.ts`, continued: create category
      "Food" (id c1), create item "Bread" in it (id i1); deleting c1 is refused
      with 409; after deleting i1, deleting c1 succeeds. */
  lemma FoodAndBread()
    ensures var s0 := Empty();
            var s1 := CategoryService.CreateCategory(s0, Some("Food"), "c1", None);
            var bread := ItemService.CreateItemInput(Some("Bread"), Some(2.0), Some("c1"));
            var s2 := ItemService.CreateItem(s1.store, bread, "i1", None);
            var s3 := CategoryService.DeleteCategory(s2.store, "c1");
            var s4 := ItemService.DeleteItem(s3.store, "i1");
            var s5 := CategoryService.DeleteCategory(s4.store, "c1");
            && s1.result == Success(Category("c1", "Food"))
            && s2.result == Success(Item("i1", "Bread", 2.0, "c1"))
            && s3.result == Failure(CategoryInUse)
            && s4.result == Success(())
            && s5.result == Success(())
            && s5.store == Empty()
  {
    var s0 := Empty();
    Text.TrimOfTrimmed("Food");
    var s1 := CategoryService.CreateCategory(s0, Some("Food"), "c1", None);
    assert s1.store.categories == [Category("c1", "Food")];
    var bread := ItemService.CreateItemInput(Some("Bread"), Some(2.0), Some("c1"));
    Text.TrimOfTrimmed("Bread");
    var s2 := ItemService.CreateItem(s1.store, bread, "i1", None);
    assert s2.store.items == [Item("i1", "Bread", 2.0, "c1")];
    var s3 := CategoryService.DeleteCategory(s2.store, "c1");
    assert "c1" in ReferencedCategoryIds(s2.store);
    var s4 := ItemService.DeleteItem(s3.store, "i1");
    assert s4.store.items == [];
    var s5 := CategoryService.DeleteCategory(s4.store, "c1");
    assert s5.store.categories == [];
  }

  /** The filtering scenario of `api.e2e.test.ts`, step by step: categories
      "A" (id c1) and "B" (id c2) are created in an empty store, ... */
  function TwoCategories(): Store {
    var s1 := CategoryService.CreateCategory(Empty(), Some("A"), "c1", None).store;
    CategoryService.CreateCategory(s1, Some("B"), "c2", None).store
  }

  /** ... then item "X" (id i1) in c1, ... */
  function OneItem(): Store {
    var x := ItemService.CreateItemInput(Some("X"), Some(1.0), Some("c1"));
    ItemService.CreateItem(TwoCategories(), x, "i1", None).store
  }

  /** ... then item "Y" (id i2) in c2. */
  function TwoItems(): Store {
    var y := ItemService.CreateItemInput(Some("Y"), Some(1.0), Some("c2"));
    ItemService.CreateItem(OneItem(), y, "i2", None).store
  }

  /** Creating a category under an already trimmed, free name and a free id
      puts exactly that category in front of the others. */
  lemma CategoryCreated(s: Store, name: string, newId: Id)
    requires name != [] && Text.Trim(name) == name
    requires newId !in CategoryIds(s) && name !in CategoryNames(s)
    ensures CategoryService.CreateCategory(s, Some(name), newId, None).store
            == s.(categories := [Category(newId, name)] + s.categories)
  {
    assert !CategoryService.Blank(Some(name));
  }

  /** Creating an item with an already trimmed name, a valid quantity and an
      existing category under a free id puts exactly that item in front. */
  lemma ItemCreated(s: Store, name: string, quantity: real, categoryId: Id, newId: Id)
    requires name != [] && Text.Trim(name) == name && 0.0 <= quantity && categoryId != ""
    requires categoryId in CategoryIds(s) && newId !in ItemIds(s)
    ensures ItemService.CreateItem(s, ItemService.CreateItemInput(Some(name), Some(quantity), Some(categoryId)), newId, None).store
            == s.(items := [Item(newId, name, quantity, categoryId)] + s.items)
  {
    assert ItemService.WellFormed(ItemService.CreateItemInput(Some(name), Some(quantity), Some(categoryId)));
  }

  /** Both categories are created, the newer first. */
  lemma TwoCategoriesCreated()
    ensures TwoCategories() == Store([Category("c2", "B"), Category("c1", "A")], [])
  {
    Text.TrimOfTrimmed("A");
    Text.TrimOfTrimmed("B");
    CategoryCreated(Empty(), "A", "c1");
    var s1 := Store([Category("c1", "A")], []);
    assert CategoryIds(s1) == {"c1"} && CategoryNames(s1) == {"A"};
    CategoryCreated(s1, "B", "c2");
  }

  /** "X" is created in c1. */
  lemma OneItemCreated()
    ensures OneItem() == Store([Category("c2", "B"), Category("c1", "A")], [Item("i1", "X", 1.0, "c1")])
  {
    TwoCategoriesCreated();
    Text.TrimOfTrimmed("X");
    assert TwoCategories().categories[1] == Category("c1", "A");
    ItemCreated(TwoCategories(), "X", 1.0, "c1", "i1");
  }

  /** "Y" is created in c2, in front of "X". */
  lemma TwoItemsCreated()
    ensures TwoItems().items == [Item("i2", "Y", 1.0, "c2"), Item("i1", "X", 1.0, "c1")]
  {
    OneItemCreated();
    SecondItemInFront(OneItem());
  }

  /** Creating "Y" in c2 where c2 exists and only "X" is stored puts "Y" in front. */
  lemma SecondItemInFront(s: Store)
    requires Category("c2", "B") in s.categories && s.items == [Item("i1", "X", 1.0, "c1")]
    ensures var y := ItemService.CreateItemInput(Some("Y"), Some(1.0), Some("c2"));
            ItemService.CreateItem(s, y, "i2", None).store.items
            == [Item("i2", "Y", 1.0, "c2"), Item("i1", "X", 1.0, "c1")]
  {
    Text.TrimOfTrimmed("Y");
    assert "c2" in CategoryIds(s) && "i2" !in ItemIds(s);
    ItemCreated(s, "Y", 1.0, "c2", "i2");
  }

  /** The filtering scenario of `api.e2e.test.ts`: categories "A" (c1) and "B"
      (c2), item "X" in c1 and item "Y" in c2; listing with `categoryId` c1
      gives exactly one item, and it is in c1. */
  lemma FilterByCategory()
    ensures var listed := ItemService.ListItems(TwoItems(), Some(ItemFilter(Some("c1")))).result.value;
            |listed| == 1 && listed[0].categoryId == "c1"
  {
    TwoItemsCreated();
    ListByFirstCategory(TwoItems());
  }

  /** Listing by c1 a store holding "Y" in c2 in front of "X" in c1 gives "X" alone. */
  lemma ListByFirstCategory(s: Store)
    requires s.items == [Item("i2", "Y", 1.0, "c2"), Item("i1", "X", 1.0, "c1")]
    ensures ItemService.ListItems(s, Some(ItemFilter(Some("c1")))).result.value == [Item("i1", "X", 1.0, "c1")]
  {
    var listed := ItemService.ListItems(s, Some(ItemFilter(Some("c1")))).result.value;
    assert listed == ItemRepository.List(s, Some(ItemFilter(Some("c1"))));
  }
}

=== FILE: tables.dfy ===
/** Operations on a table of rows kept as a sequence: selecting the rows that
    satisfy a condition, finding one, and keeping a key unique. */
module Tables {
  import opened Wrappers

  /** The rows of `s` that satisfy `p`, in their original order. */
  function Filter<T(!new)>(s: seq<T>, p: T -> bool): (r: seq<T>)
    ensures |r| <= |s|
    ensures forall x :: x in r <==> x in s && p(x)
    ensures (forall i | 0 <= i < |s| :: p(s[i])) ==> r == s
  {
    if s == [] then []
    else if p(s[0]) then [s[0]] + Filter(s[1..], p)
    else Filter(s[1..], p)
  }

  /** Filtering keeps each selected row as many times as the table holds it,
      and drops every other row. */
  lemma {:induction false} FilterCounts<T(!new)>(s: seq<T>, p: T -> bool)
    ensures forall x :: multiset(Filter(s, p))[x] == if p(x) then multiset(s)[x] else 0
  {
    if s != [] {
      FilterCounts(s[1..], p);
      assert s == [s[0]] + s[1..];
    }
  }

  /** The first row of `s` that satisfies `p`, if there is one. */
  function Find<T(!new)>(s: seq<T>, p: T -> bool): (r: Option<T>)
    ensures r.Some? ==> r.value in s && p(r.value)
    ensures r.Some? ==> exists i | 0 <= i < |s| :: s[i] == r.value && forall j | 0 <= j < i :: !p(s[j])
    ensures r.None? ==> forall x | x in s :: !p(x)
  {
    if s == [] then None
    else if p(s[0]) then Some(s[0])
    else Find(s[1..], p)
  }

  /** No two rows of `s` share a `key`. */
  predicate Distinct<T, K(==)>(s: seq<T>, key: T -> K) {
    forall i, j | 0 <= i < j < |s| :: key(s[i]) != key(s[j])
  }

  /** Filtering distributes over concatenation, so it keeps the relative order
      of the rows it selects. */
  lemma {:induction false} FilterConcat<T(!new)>(a: seq<T>, b: seq<T>, p: T -> bool)
    ensures Filter(a + b, p) == Filter(a, p) + Filter(b, p)
  {
    if a == [] {
      assert a + b == b;
    } else {
      assert (a + b)[1..] == a[1..] + b;
      FilterConcat(a[1..], b, p);
    }
  }

  /** Filtering out a single row that every other row passes removes just that
      row and keeps the others in their order. */
  lemma FilterDropOne<T(!new)>(a: seq<T>, x: T, b: seq<T>, p: T -> bool)
    requires !p(x)
    requires forall i | 0 <= i < |a| :: p(a[i])
    requires forall i | 0 <= i < |b| :: p(b[i])
    ensures Filter(a + [x] + b, p) == a + b
  {
    FilterConcat(a + [x], b, p);
    FilterConcat(a, [x], p);
  }

  /** A table is empty of `p`-rows exactly when filtering for `p` selects nothing. */
  lemma FilterEmpty<T(!new)>(s: seq<T>, p: T -> bool)
    ensures Filter(s, p) == [] <==> forall x | x in s :: !p(x)
  {
    var r := Filter(s, p);
    if r != [] {
      assert r[0] in r;
    }
  }

  /** Prepending a row whose key is new keeps the keys distinct. */
  lemma DistinctCons<T, K>(x: T, s: seq<T>, key: T -> K)
    requires Distinct(s, key)
    requires forall y | y in s :: key(y) != key(x)
    ensures Distinct([x] + s, key)
  {
    var t := [x] + s;
    forall i, j | 0 <= i < j < |t| ensures key(t[i]) != key(t[j]) {
      assert t[j] == s[j - 1];
      if i > 0 {
        assert t[i] == s[i - 1];
      } else {
        assert t[j] in s;
      }
    }
  }

  /** Rows with distinct keys are distinct rows, so the table has as many rows
      as there are values in it. */
  lemma {:induction false} DistinctCard<T, K>(s: seq<T>, key: T -> K)
    requires Distinct(s, key)
    ensures |set x | x in s| == |s|
  {
    if s != [] {
      var rest := s[1..];
      assert Distinct(rest, key) by {
        forall i, j | 0 <= i < j < |rest| ensures key(rest[i]) != key(rest[j]) {
          assert rest[i] == s[i + 1] && rest[j] == s[j + 1];
        }
      }
      DistinctCard(rest, key);
      assert s[0] !in rest by {
        forall j | 0 <= j < |rest| ensures rest[j] != s[0] {
          assert rest[j] == s[j + 1];
        }
      }
      assert (set x | x in s) == {s[0]} + (set x | x in rest) by {
        assert s == [s[0]] + rest;
      }
    }
  }

  /** Removing rows keeps the keys distinct. */
  lemma {:induction false} FilterDistinct<T(!new), K>(s: seq<T>, p: T -> bool, key: T -> K)
    requires Distinct(s, key)
    ensures Distinct(Filter(s, p), key)
  {
    if s != [] {
      var rest := s[1..];
      assert Distinct(rest, key) by {
        forall i, j | 0 <= i < j < |rest| ensures key(rest[i]) != key(rest[j]) {
          assert rest[i] == s[i + 1] && rest[j] == s[j + 1];
        }
      }
      FilterDistinct(rest, p, key);
      if p(s[0]) {
        forall y | y in Filter(rest, p) ensures key(y) != key(s[0]) {
          var j :| 0 <= j < |rest| && rest[j] == y;
          assert y == s[j + 1];
        }
        DistinctCons(s[0], Filter(rest, p), key);
      }
    }
  }
}

=== FILE: text.dfy ===
/** String trimming as JavaScript's `String.prototype.trim` does it: strip the
    ECMAScript WhiteSpace and LineTerminator characters from both ends. */
module Text {

  /** The characters `trim` removes: space, TAB, LF, VT, FF, CR, and the
      non-ASCII ones listed in `UnicodeSpaces`. */
  predicate IsWhitespace(c: char) {
    c == ' ' || ('\t' <= c <= '\r') || ('\U{00A0}' <= c && OccursIn(c, UnicodeSpaces))
  }

  /** The other space separators of Unicode category Zs, the line and
      paragraph separators, and the byte order mark. */
  const UnicodeSpaces: seq<char> := [
    '\U{00A0}', '\U{1680}',
    '\U{2000}', '\U{2001}', '\U{2002}', '\U{2003}', '\U{2004}', '\U{2005}',
    '\U{2006}', '\U{2007}', '\U{2008}', '\U{2009}', '\U{200A}',
    '\U{2028}', '\U{2029}', '\U{202F}', '\U{205F}', '\U{3000}', '\U{FEFF}'
  ]

  /** `c` occurs in `cs`. */
  predicate OccursIn(c: char, cs: seq<char>) {
    |cs| > 0 && (cs[0] == c || OccursIn(c, cs[1..]))
  }

  /** True of the empty string and of strings made only of whitespace: the
      strings whose trimmed form is falsy in JavaScript. */
  predicate AllWhitespace(s: string) {
    forall i | 0 <= i < |s| :: IsWhitespace(s[i])
  }

  /** The first index at or after `i` that does not hold whitespace (or `|s|`). */
  function SkipLeading(s: string, i: nat): (j: nat)
    requires i <= |s|
    ensures i <= j <= |s|
    ensures forall k | i <= k < j :: IsWhitespace(s[k])
    ensures j == |s| || !IsWhitespace(s[j])
    decreases |s| - i
  {
    if i < |s| && IsWhitespace(s[i]) then SkipLeading(s, i + 1) else i
  }

  /** The last index down from `j`, but not below `lo`, that follows a
      non-whitespace character (or `lo`). */
  function SkipTrailing(s: string, lo: nat, j: nat): (i: nat)
    requires lo <= j <= |s|
    ensures lo <= i <= j
    ensures forall k | i <= k < j :: IsWhitespace(s[k])
    ensures i == lo || !IsWhitespace(s[i - 1])
    decreases j
  {
    if lo < j && IsWhitespace(s[j - 1]) then SkipTrailing(s, lo, j - 1) else j
  }

  /** `s.trim()`. The result is empty exactly when `s` is blank, and otherwise
      starts and ends with a non-whitespace character. */
  function Trim(s: string): (r: string)
    ensures r == [] <==> AllWhitespace(s)
    ensures r != [] ==> !IsWhitespace(r[0]) && !IsWhitespace(r[|r| - 1])
  {
    var a := SkipLeading(s, 0);
    var b := SkipTrailing(s, a, |s|);
    s[a..b]
  }

  /** What `Trim` cuts off is whitespace on both sides: its result is an infix of
      `s` with blank margins. */
  lemma TrimIsInfix(s: string)
    ensures exists i | 0 <= i <= |s| - |Trim(s)| ::
              && Trim(s) == s[i..i + |Trim(s)|]
              && AllWhitespace(s[..i]) && AllWhitespace(s[i + |Trim(s)|..])
  {
    var a := SkipLeading(s, 0);
    var b := SkipTrailing(s, a, |s|);
    assert AllWhitespace(s[..a]);
    assert AllWhitespace(s[b..]);
  }

  /** Conversely, an infix of `s` with blank margins whose own ends are not
      whitespace is `Trim(s)`: the two lemmas together characterise `trim`. */
  lemma TrimUnique(s: string, i: nat, j: nat)
    requires i <= j <= |s|
    requires AllWhitespace(s[..i]) && AllWhitespace(s[j..])
    requires i < j ==> !IsWhitespace(s[i]) && !IsWhitespace(s[j - 1])
    ensures Trim(s) == s[i..j]
  {
    assert forall k | 0 <= k < i :: s[..i][k] == s[k];
    assert forall k | j <= k < |s| :: s[j..][k - j] == s[k];
    if i < j {
      SkipLeadingUnique(s, 0, i);
      SkipTrailingUnique(s, i, |s|, j);
    } else {
      assert s == s[..i] + s[j..];
      BlankConcat(s[..i], s[j..]);
    }
  }

  /** The scan for the first non-whitespace index is determined by its contract. */
  lemma SkipLeadingUnique(s: string, i: nat, j: nat)
    requires i <= j <= |s|
    requires forall k | i <= k < j :: IsWhitespace(s[k])
    requires j == |s| || !IsWhitespace(s[j])
    ensures SkipLeading(s, i) == j
  {
  }

  /** The scan for the last non-whitespace index is determined by its contract. */
  lemma SkipTrailingUnique(s: string, lo: nat, j: nat, i: nat)
    requires lo <= i <= j <= |s|
    requires forall k | i <= k < j :: IsWhitespace(s[k])
    requires i == lo || !IsWhitespace(s[i - 1])
    ensures SkipTrailing(s, lo, j) == i
  {
  }

  /** A concatenation is blank exactly when both parts are. */
  lemma BlankConcat(a: string, b: string)
    ensures AllWhitespace(a + b) <==> AllWhitespace(a) && AllWhitespace(b)
  {
    if AllWhitespace(a + b) {
      forall k | 0 <= k < |a| ensures IsWhitespace(a[k]) {
        assert a[k] == (a + b)[k];
      }
      forall k | 0 <= k < |b| ensures IsWhitespace(b[k]) {
        assert b[k] == (a + b)[|a| + k];
      }
    }
  }

  /** In `p + s + q`, the characters of `s` sit at offset `|p|`. */
  lemma PaddedIndex(p: string, s: string, q: string, k: int)
    requires 0 <= k < |s|
    ensures (p + s + q)[|p| + k] == s[k]
  {
  }

  /** Both scans over `p + s + q` stop at the same places in `s` as the scans
      over `s` alone, shifted by `|p|`. */
  lemma PaddedBounds(p: string, s: string, q: string, a: nat, b: nat)
    requires AllWhitespace(p) && AllWhitespace(q) && !AllWhitespace(s)
    requires a == SkipLeading(s, 0) && b == SkipTrailing(s, a, |s|)
    ensures SkipLeading(p + s + q, 0) == |p| + a
    ensures SkipTrailing(p + s + q, |p| + a, |p + s + q|) == |p| + b
  {
    var x := p + s + q;
    forall k | 0 <= k < |p| ensures IsWhitespace(x[k]) {
      assert x[k] == p[k];
    }
    forall j | |p| <= j < |p| + a ensures IsWhitespace(x[j]) {
      PaddedIndex(p, s, q, j - |p|);
    }
    assert a < |s|;
    PaddedIndex(p, s, q, a);
    SkipLeadingUnique(x, 0, |p| + a);
    forall j | |p| + |s| <= j < |x| ensures IsWhitespace(x[j]) {
      assert x[j] == q[j - |p| - |s|];
    }
    forall j | |p| + b <= j < |p| + |s| ensures IsWhitespace(x[j]) {
      PaddedIndex(p, s, q, j - |p|);
    }
    PaddedIndex(p, s, q, b - 1);
    SkipTrailingUnique(x, |p| + a, |x|, |p| + b);
  }

  /** Padding a string with whitespace on either side does not change its trimmed
      form, e.g. `"  Food  ".trim() == "Food".trim()`. */
  lemma TrimIgnoresPadding(p: string, s: string, q: string)
    requires AllWhitespace(p) && AllWhitespace(q)
    ensures Trim(p + s + q) == Trim(s)
  {
    if AllWhitespace(s) {
      BlankConcat(p, s);
      BlankConcat(p + s, q);
    } else {
      PaddedTrim(p, s, q);
    }
  }

  /** `TrimIgnoresPadding` for a string `s` that is not blank. */
  lemma PaddedTrim(p: string, s: string, q: string)
    requires AllWhitespace(p) && AllWhitespace(q) && !AllWhitespace(s)
    ensures Trim(p + s + q) == Trim(s)
  {
    var a := SkipLeading(s, 0);
    var b := SkipTrailing(s, a, |s|);
    PaddedBounds(p, s, q, a, b);
    assert (p + s + q)[|p| + a..|p| + b] == s[a..b];
  }

  /** A string that neither starts nor ends with whitespace is its own trimmed form. */
  lemma TrimOfTrimmed(s: string)
    requires s == [] || (!IsWhitespace(s[0]) && !IsWhitespace(s[|s| - 1]))
    ensures Trim(s) == s
  {
    if s != [] {
      SkipLeadingUnique(s, 0, 0);
      SkipTrailingUnique(s, 0, |s|, |s|);
      assert s[0..|s|] == s;
    }
  }

  /** Trimming twice is trimming once. */
  lemma TrimIdempotent(s: string)
    ensures Trim(Trim(s)) == Trim(s)
  {
    TrimOfTrimmed(Trim(s));
  }

  /** The category tests' example: `"  Food  "` trims to `"Food"`. */
  lemma TrimFoodExample()
    ensures Trim("  Food  ") == "Food"
  {
    assert "  Food  " == "  " + "Food" + "  ";
    TrimIgnoresPadding("  ", "Food", "  ");
    TrimOfTrimmed("Food");
  }
}

=== FILE: wrappers.dfy ===
/** Optional values and results with an error, used for absent request fields,
    lookups that may find nothing, and operations that may fail. */
module Wrappers {

  /** A value that may be absent (`undefined` or `null` in the source). */
  datatype Option<+T> = None | Some(value: T)

  /** The outcome of an operation that either returns a value or throws an error. */
  datatype Result<+R, +E> = Success(value: R) | Failure(error: E)
}
